=== FILE: README.md ===
# filemanager-rs in Dafny

A functional model of the command-line file manager `filemanager-rs` (one Rust file,
`src/main.rs`). The model covers the parts of the program that hold logic of their own:

- **Argument dispatch** (`main`): the arguments after the program name become one
  `Command` or a `UsageError`. This includes the `list_recursive` flag loop for
  `--extension` and `--name`.
- **The filter predicate** (`apply_filters`): an optional extension filter and an optional
  name-substring filter, combined by AND. The filter uses Rust's `Path::extension` and
  `Path::file_name` rules.
- **The mode parser** (`parse_mode`): `u32::from_str_radix(mode, 8)`. Every failure
  becomes an `InvalidInput` error. `change_permissions` hands the parsed value over
  unmasked.
- **The listings.** The recursive walk (`list_recursive` / `visit_dirs`) and the flat
  listing (`list_files`) run over an immutable finite tree of `File` and `Dir` nodes. The
  order of a directory's children stands for the `read_dir` enumeration order. The walk
  returns the lines it prints.
- **One run of the program** (`Cli.Run`). A run maps the arguments, a filesystem and the
  outcome of the one operating-system call it may make to a `Report`. A report holds the
  standard-output lines, the standard-error lines and the filesystem-changing call it made,
  if any.

Modules, one per file:

- `Wrappers` holds `Option` and `Result`.
- `IoErrors` holds the `io::Error` kinds the program produces.
- `Paths` holds path joining, the final component, the extension and substring search.
- `Filters` holds `apply_filters`.
- `Mode` holds `parse_mode` and the `u32` type.
- `Walker` holds the two listings and a reference pre-order traversal they are proved
  against.
- `WalkerExamples` holds the listing of a two-level tree like the one the listing test
  builds.
- `Dispatch` holds argument parsing and its inverse.
- `Cli` holds the arms of `main`.

Two behaviours of the code are easy to miss, and the model keeps both:

- `change_permissions` passes the parsed mode to `set_mode` unmasked, so bits above the
  nine permission bits reach the operating system (`Cli.ChmodDoesNotMask`). Only the test
  masks with `& 0o777` (`src/main.rs:325`), when it reads the mode back.
- The fixed-arity commands read only the positional arguments they need and ignore any
  arguments after them (`Dispatch.ExtraArgumentsIgnored`). The `list_recursive` flag loop
  is different: it rejects any token it does not know (`Dispatch.ParseFlags`).

## Model

| member | source | states |
|---|---|---|
| Paths.Join | src/main.rs:209-211 | An entry's path starts with its directory's path and ends with the entry's name. No separator is added after an empty directory path or one that already ends in `/`; otherwise exactly one `/` lies between them. |
| Paths.FileName | src/main.rs:235 | A final component, when the path has one, is a real entry name: non-empty, not `.` or `..`, and free of `/`. It is the tail end of the path. |
| Paths.Extension | src/main.rs:231 | There is no extension exactly for `..`, for a name without a dot, and for a name whose only dot is its first character. Otherwise the extension is the dot-free text after the last dot, and that dot is not the first character. |
| Paths.Contains | src/main.rs:235 | `str::contains` holds exactly when the pattern occurs at some position of the name. |
| Paths.ContainsSameLength | src/main.rs:235 | For a pattern as long as the name, containment is equality. |
| Paths.FileNameOfJoin | src/main.rs:211 | The final component of an entry's path is the entry's own name, whatever the directory path. |
| Paths.ExtensionOfDottedName | src/main.rs:231 | A name `stem.ext`, with `ext` free of dots and a non-empty stem, has extension `ext`. |
| Paths.ExtensionOfDoubleDotted | src/main.rs:231 | Only the last dot counts: `archive.tar.gz` has extension `gz`. |
| Paths.HiddenNameHasNoExtension | src/main.rs:231 | A name whose only dot leads it (`.hidden`) has no extension. |
| Filters.ExtensionCharacterised | src/main.rs:231 | The computed extension equals `e` exactly when the name, character by character, ends in a non-leading dot followed by the dot-free `e`. |
| Filters.ExtensionTest | src/main.rs:231 | The extension test passes exactly when the path has a final component whose extension is the filter string. |
| Filters.NameTest | src/main.rs:235 | The name test passes exactly when the path has a final component in which the filter string occurs. A path without one fails. |
| Filters.ApplyFilters | src/main.rs:227-239 | A path passes exactly when it meets every filter that is given: the extension filter if present and the name filter if present. |
| Filters.NoFiltersPassEverything | src/main.rs:228-238 | With neither filter, every path passes. |
| Filters.FiltersCompose | src/main.rs:228-238 | With both filters, the verdict is the AND of each filter applied alone, so adding a filter never turns a rejection into a match. |
| Filters.FilterSeesOnlyTheEntryName | src/main.rs:211-236 | For an entry path, the verdict depends only on the entry's name, not on the directory. The extension filter passes exactly when the name's extension is the filter. The name filter passes exactly when the name contains it. |
| Filters.VerdictOfFileName | src/main.rs:227-239 | Any path whose final component is a given name gets that name's verdict: its extension equals the extension filter, when one is given, and it contains the name filter, when one is given. |
| Filters.DottedNameFilter | src/main.rs:230-232 | An entry `stem.ext`, wherever it sits, passes an extension filter exactly when the filter is `ext`. |
| Filters.NameFilterVerdict | src/main.rs:234-236 | For an entry path, the name filter's verdict is containment in the entry's name. |
| Filters.NoExtensionNeverPasses | src/main.rs:230-232 | A name without a dot, or whose only dot leads it, fails every extension filter. |
| Filters.ExtensionFilterIsCaseSensitive | src/main.rs:231 | `notes.TXT` is not selected by the extension filter `txt`. |
| Filters.NameFilterIsCaseSensitive | src/main.rs:235 | `README` is not selected by the name filter `readme`. |
| Mode.Accumulate | src/main.rs:251 | The digit loop succeeds exactly when every character is an octal digit and the base-8 value stays below 2^32. The value it yields is that base-8 value. |
| Mode.ParseMode | src/main.rs:250-255 | A mode is accepted exactly when it is an optional single `+` followed by one or more digits 0-7 whose base-8 value is below 2^32. The result is that value. Anything else is the `InvalidInput` error "Invalid mode format". |
| Mode.ParseFormatRoundTrip | src/main.rs:250-255 | Every 32-bit value comes back unchanged from its canonical octal spelling. |
| Mode.FormatOverflowRejected | src/main.rs:251-253 | The spelling of any value of 2^32 or more is rejected, never wrapped. |
| Mode.PlusSignIgnored | src/main.rs:251 | A single leading `+` does not change the outcome. |
| Mode.LeadingZeroIgnored | src/main.rs:251 | A leading zero does not change the outcome. |
| Mode.ParseSevenFiveFive | src/main.rs:318-325 | `755` is read as 0o755. |
| Mode.ParseFourSevenFiveFive | src/main.rs:250-255 | `4755` is read as 0o4755, with the bit above the permission bits kept. |
| Mode.RejectedModes | src/main.rs:251-253 | `8`, `-7`, the empty string and a lone `+` are rejected with `InvalidInput`. |
| Walker.Indent | src/main.rs:214 | The indentation at depth `d` is exactly `2*d` spaces. |
| Walker.LineRoundTrip | src/main.rs:214-215 | A printed line can be read back into the depth and path it was printed for. |
| Walker.ListRecursive | src/main.rs:197-205 | A missing root fails with `NotFound` before any line is printed. An existing root that is not a directory prints nothing and succeeds. |
| Walker.ListFiles | src/main.rs:153-167 | A directory gives one bare name per immediate child, in enumeration order. A missing path or a non-directory gives `NotFound` "Directory not found". |
| Walker.Entries | src/main.rs:207-221 | Everything the walk reaches below a directory lies under that directory's path, at that depth or deeper. |
| Walker.VisitDirsIsSelectedEntries | src/main.rs:207-225 | The walk prints exactly the pre-order entries below the root that pass the filters, in order. Each entry's line comes before its subtree, and its children sit one level deeper. |
| Walker.VisitEntriesIsSelectedEntries | src/main.rs:209-221 | The same for the loop over a directory's entries. A subdirectory is entered whether or not it passed the filters. |
| Walker.RenderSelectIsKeepLines | src/main.rs:213-216 | Printing the passing entries is the same as printing all entries and keeping the lines whose path passes. |
| Walker.FilteredOutputRestrictsUnfiltered | src/main.rs:207-225 | Filtered output equals the unfiltered output restricted to the lines whose path passes the filters. It is never longer. |
| Walker.EntriesAreNamed | src/main.rs:209-211 | In a tree whose names are all ones `read_dir` can report, the final component of every path the walk builds is that entry's own name. |
| Walker.EntryVerdictIsByName | src/main.rs:211-216 | In such a tree, the filters' verdict on every entry the walk reaches depends only on the entry's name. |
| Walker.UnfilteredLineCount | src/main.rs:204-221 | Without filters, every object below the root is printed once and the root is not: the line count is the tree size less one. |
| Walker.TopLevelEntries | src/main.rs:204-211 | The entries the walk reports at the starting depth are exactly the directory's own entries, in order, each joined onto the directory path. |
| Walker.ListFilesIsTopLevelOfWalk | src/main.rs:153-167 | The flat listing prints, in order, the names of the entries the recursive walk reports at depth 0. |
| WalkerExamples.WalkOfTwoLevel | src/main.rs:207-225 | For a root holding a file and a directory with one file, three lines are candidates, in pre-order, each kept exactly when its path passes. The inner file is one level deeper. |
| WalkerExamples.WalkOfTwoLevelTree | src/main.rs:207-225 | The same for the tree `r/f.txt`, `r/s/g.txt`, with the concrete lines. |
| WalkerExamples.UnfilteredListingOfTwoLevelTree | src/main.rs:364-384 | Without filters, the listing of that tree is `/r/f.txt`, `/r/s`, `  /r/s/g.txt`. |
| WalkerExamples.FilteredListingOfTwoLevelTree | src/main.rs:213-220 | With the extension filter `txt`, the directory `s` is hidden but still entered: `/r/f.txt`, `  /r/s/g.txt`. |
| Dispatch.ParseFlags | src/main.rs:99-124 | The flag loop fails exactly when some position is a failing flag position: every earlier even position holds a flag with its value, and this one holds a non-flag or a flag that is the last token. It then reports that position's token, as an unknown argument or as a flag missing its value. Every filter it returns is the default or a token from the input. |
| Dispatch.ParseFlagsMeaning | src/main.rs:99-124 | The loop succeeds exactly when the tokens form (flag, value) pairs. Each filter then holds the value of its flag's last occurrence, taken verbatim. |
| Dispatch.ListRecursiveParse | src/main.rs:88-124 | `list_recursive <dir>` followed by flag tokens parses exactly when the tokens form (flag, value) pairs, and then carries each flag's last value. Otherwise it reports the token at the failing flag position. |
| Dispatch.FlagTokensParse | src/main.rs:99-124 | The flags written for a pair of filters parse back to those filters. |
| Dispatch.FlagValueExamples | src/main.rs:101-116 | A value that looks like a flag is taken as a value, and a repeated flag keeps its last value. |
| Dispatch.FlagErrorExamples | src/main.rs:101-122 | A flag without a value gives "Missing value for" that flag. An unknown token gives "Unknown argument". |
| Dispatch.Parse | src/main.rs:11-149 | No arguments gives the no-command error. An unrecognised word gives the unknown-command error. Too few positionals gives that command's usage line. A parsed command has the first argument as its word and had enough positionals. |
| Dispatch.ParseArgumentsFor | src/main.rs:19-145 | Every command is recovered from its canonical argument list. |
| Dispatch.ExtraArgumentsIgnored | src/main.rs:29-145 | For every command except `list_recursive`, tokens after its positional arguments are ignored. |
| Dispatch.ListDefaultsToCurrentDirectory | src/main.rs:20-21 | `list` with no directory lists `.`. |
| Cli.SymlinkCall | src/main.rs:184-195 | The link is requested exactly when the target exists. Otherwise the call fails with `NotFound` before the operating system is asked. |
| Cli.ChangePermissions | src/main.rs:241-248 | Permissions are set exactly when the file exists and the mode parses. The mode set is the parsed value, unmasked. A missing file fails with its metadata error even when the mode is malformed. |
| Cli.Execute | src/main.rs:19-149 | Any filesystem call made is the one the command asks for. A call is made exactly for `copy`, `move`, `delete`, `symlink` to an existing target, and `chmod` of an existing file with a well-formed mode. After a call, the error stream is empty exactly when the operating system reports success. At most one error line is printed, and never together with output. |
| Cli.CopyOutcome | src/main.rs:29-42 | `copy` always asks for the copy. It prints "File copied successfully" when the operating system succeeds, and otherwise "Error copying file: " followed by its error. |
| Cli.MoveOutcome | src/main.rs:44-57 | `move` always asks for the rename. It prints "File moved successfully" or "Error moving file: " followed by the error. |
| Cli.DeleteOutcome | src/main.rs:59-71 | `delete` always asks for the removal. It prints "File deleted successfully" or "Error deleting file: " followed by the error. |
| Cli.SymlinkToExistingTarget | src/main.rs:73-86 | `symlink` to an existing target asks for the link. It prints "Symlink created successfully" or "Error creating symlink: " followed by the error. |
| Cli.Run | src/main.rs:8-151 | A usage error prints its one message to standard error and makes no filesystem call. Any argument list that parses, canonical or not (trailing arguments, `list` alone, repeated flags), runs exactly the parsed command. |
| Cli.ChmodHandsOverParsedMode | src/main.rs:132-145 | `chmod <mode> <file>` sets exactly the parsed mode on an existing file. A missing file or a malformed mode makes no call at all. |
| Cli.ChmodOutcome | src/main.rs:132-145 | `chmod <mode> <file>` reports a missing file as "Error changing permissions: No such file or directory (os error 2)" first, then a malformed mode as "Error changing permissions: Invalid mode format", both with no call. Otherwise it requests the parsed mode and prints "Permissions changed successfully" or "Error changing permissions: " followed by the operating system's error. |
| Cli.ChmodDoesNotMask | src/main.rs:244-245 | `chmod 4755` asks for 0o4755, with the set-user-ID bit kept. |
| Cli.ChmodSevenFiveFive | src/main.rs:313-325 | `chmod 755` on an existing file prints the success message and sets a mode whose nine permission bits read 0o755. |
| Cli.SymlinkNeedsExistingTarget | src/main.rs:184-190 | A link to a missing target is refused with "Error creating symlink: Target '…' not found" and no call. |
| Cli.ListRecursiveOutcome | src/main.rs:88-130 | A missing directory prints only "Error listing directory: Directory '…' not found". An existing one prints exactly the walk. No filesystem call is made. |
| Cli.ListOutcome | src/main.rs:20-27 | `list` prints a directory's entry names in order. It reports "Error listing files: Directory not found" for a missing path or a non-directory. |

## Left out

- Filesystem effects are left out. `fs::copy`, `fs::rename`, `fs::remove_file`, `unix_fs::symlink` and `fs::set_permissions` are single operating-system calls with no logic of their own. The model records which call is made; its outcome is the parameter `os`. What the call does to the filesystem is not modelled.
- The filesystem is a map from existing paths to nodes. `Path::exists` is map membership, and `is_dir` is a `Dir` node.
- Failures of `read_dir` or of one entry are left out, both while walking (the `?` at `src/main.rs:209-210` and `src/main.rs:219`) and in `list_files` (the `?` at `src/main.rs:157-158`). So are the partial output and early stop they cause. The tree is always readable, so `Cli.ListOutcome` prints no error for an existing directory.
- `env::args()` panics on an argument that is not valid Unicode. The arguments are a sequence of strings here, so that panic is not modelled.
- Symbolic links inside the tree are left out. `is_dir` follows them, which can make the walk loop forever. The tree is finite and has no links, so such cycles cannot arise.
- `to_string_lossy` and non-UTF-8 names are left out: names are strings. A failed `to_str` would only make a filter fail.
- Printing and exit status: output is a sequence of lines per stream, and how the two streams interleave is not modelled. `main` returns normally unless a write fails. `println!` and `eprintln!` panic on a write error such as a closed pipe, which stops the run part-way; that panic is not modelled.
- `Cli.ChangePermissions`: any `fs::metadata` failure is shown with the "No such file or directory" message. Other metadata errors, such as permission denied, are not modelled.
- `Mode.ParseMode`: the kinds of `ParseIntError` (empty, invalid digit, overflow) are not told apart. The program discards them too, when it maps every failure to "Invalid mode format".
- `Paths.FileName`: paths ending in `/` or `/.` have no final component here. Rust normalises them away first (`foo/` has the file name `foo`). The walker only builds paths as a directory joined with an entry name, and those never end that way.
- `Paths.Join`: an absolute name replaces the whole path in Rust. That case is not modelled, because an entry name never contains `/`.
- The test functions (`src/main.rs:257-385`) create and delete temporary files. Only their observable claims are modelled: `chmod 755` and the two-level recursive listing.

=== FILE: cli.dfy ===
/** One run of the program (`main`): dispatch the arguments, perform the one operation
    they name, and report the outcome. The filesystem is a map from each existing path
    to the object found there; the outcome of the single operating-system call an
    operation makes (copy, rename, unlink, symlink, set-permissions) is a parameter. */
module Cli {
  import opened Wrappers
  import opened IoErrors
  import opened Mode
  import Walker
  import opened Dispatch

  /** The one filesystem-changing call an operation hands to the operating system. */
  datatype Effect =
    | CopyFile(source: string, destination: string)
    | Rename(source: string, destination: string)
    | RemoveFile(path: string)
    | CreateSymlink(target: string, link: string)
    | SetPermissions(path: string, mode: u32)

  /** What a run leaves behind: the lines written to standard output and to standard
      error, and the filesystem-changing call made, if any. */
  datatype Report = Report(stdout: seq<string>, stderr: seq<string>, effect: Option<Effect>)

  type FileSystem = map<string, Walker.Node>

  function Lookup(fs: FileSystem, path: string): Option<Walker.Node> {
    if path in fs then Some(fs[path]) else None
  }

  /** `create_symlink`: a target that does not exist is refused with `NotFound` before
      the operating system is asked; otherwise the link is requested. */
  function SymlinkCall(fs: FileSystem, target: string, link: string): (r: Result<Effect, IoError>)
    ensures r.Ok? <==> target in fs
    ensures r.Ok? ==> r.value == CreateSymlink(target, link)
    ensures r.Err? ==> r.error.kind == NotFound
  {
    if target !in fs then Err(IoError(NotFound, "Target '" + target + "' not found"))
    else Ok(CreateSymlink(target, link))
  }

  /** `change_permissions` up to `fs::set_permissions`: the file's metadata is read first
      (so a missing file fails even when the mode is malformed), then the mode is parsed,
      and the parsed value goes to `set_mode` with no masking. */
  function ChangePermissions(fs: FileSystem, file: string, mode: string): (r: Result<Effect, IoError>)
    ensures r.Ok? <==> file in fs && IsOctalNumeral(mode) && OctalValue(0, Digits(mode)) < U32Limit
    ensures r.Ok? ==>
      && r.value.SetPermissions?
      && r.value.path == file
      && r.value.mode as int == OctalValue(0, Digits(mode))
    ensures file !in fs ==> r == Err(MissingPathError)
    ensures file in fs && r.Err? ==> r == Err(InvalidModeError)
  {
    if file !in fs then Err(MissingPathError)
    else
      match ParseMode(mode)
      case Ok(m) => Ok(SetPermissions(file, m))
      case Err(e) => Err(e)
  }

  /** Hands `effect` to the operating system, whose answer is `os`, and prints the
      success message or the prefixed error. */
  function Perform(effect: Effect, os: Result<(), IoError>, success: string, failure: string): Report {
    match os
    case Ok(_) => Report([success], [], Some(effect))
    case Err(e) => Report([], [failure + e.message], Some(effect))
  }

  /** The effect `cmd` asks for, when it asks for one. */
  predicate Requests(cmd: Command, effect: Effect) {
    match effect
    case CopyFile(s, d) => cmd == Copy(s, d)
    case Rename(s, d) => cmd == Move(s, d)
    case RemoveFile(p) => cmd == Delete(p)
    case CreateSymlink(t, l) => cmd == Symlink(t, l)
    case SetPermissions(p, _) => cmd.Chmod? && cmd.file == p
  }

  /** The arm of `main` for one parsed command. */
  function Execute(cmd: Command, fs: FileSystem, os: Result<(), IoError>): (r: Report)
    ensures r.effect.Some? ==> Requests(cmd, r.effect.value)
    ensures |r.stderr| <= 1
    ensures r.stderr != [] ==> r.stdout == []
    ensures r.effect.None? <==>
      || cmd.List? || cmd.ListRecursive?
      || (cmd.Symlink? && cmd.target !in fs)
      || (cmd.Chmod? && (cmd.file !in fs || ParseMode(cmd.mode).Err?))
    ensures r.effect.Some? ==> (r.stderr == [] <==> os.Ok?)
  {
    match cmd
    case List(dir) =>
      (match Walker.ListFiles(dir, Lookup(fs, dir))
       case Ok(lines) => Report(lines, [], None)
       case Err(e) => Report([], ["Error listing files: " + e.message], None))
    case Copy(s, d) => Perform(CopyFile(s, d), os, "File copied successfully", "Error copying file: ")
    case Move(s, d) => Perform(Rename(s, d), os, "File moved successfully", "Error moving file: ")
    case Delete(f) => Perform(RemoveFile(f), os, "File deleted successfully", "Error deleting file: ")
    case Symlink(t, l) =>
      (match SymlinkCall(fs, t, l)
       case Ok(effect) => Perform(effect, os, "Symlink created successfully", "Error creating symlink: ")
       case Err(e) => Report([], ["Error creating symlink: " + e.message], None))
    case ListRecursive(dir, e, n) =>
      (match Walker.ListRecursive(dir, Lookup(fs, dir), e, n)
       case Ok(lines) => Report(lines, [], None)
       case Err(err) => Report([], ["Error listing directory: " + err.message], None))
    case Chmod(f, m) =>
      (match ChangePermissions(fs, f, m)
       case Ok(effect) => Perform(effect, os, "Permissions changed successfully", "Error changing permissions: ")
       case Err(e) => Report([], ["Error changing permissions: " + e.message], None))
  }

  /** `main`: a usage error prints one line to standard error and touches nothing;
      otherwise the parsed command runs. Every run prints at most one error line, and
      never both an error and output. */
  function Run(args: seq<string>, fs: FileSystem, os: Result<(), IoError>): (r: Report)
    ensures Parse(args).Err? ==> r == Report([], [Message(Parse(args).error)], None)
    ensures Parse(args).Ok? ==> r == Execute(Parse(args).value, fs, os)
    ensures r.effect.Some? ==> Parse(args).Ok? && Requests(Parse(args).value, r.effect.value)
    ensures |r.stderr| <= 1
    ensures r.stderr != [] ==> r.stdout == []
  {
    match Parse(args)
    case Err(err) => Report([], [Message(err)], None)
    case Ok(cmd) => Execute(cmd, fs, os)
  }

  // ---------------------------------------------------------------------------

  /** Running a command's canonical argument list executes that command. */
  lemma RunArgumentsFor(cmd: Command, fs: FileSystem, os: Result<(), IoError>)
    ensures Run(ArgumentsFor(cmd), fs, os) == Execute(cmd, fs, os)
  {
    ParseArgumentsFor(cmd);
  }

  /** `chmod <mode> <file>` sets exactly the parsed mode on an existing file, with no
      masking; a missing file or a malformed mode makes no call at all. */
  lemma ChmodHandsOverParsedMode(mode: string, file: string, extra: seq<string>, fs: FileSystem, os: Result<(), IoError>, v: u32)
    ensures Run(["chmod", mode, file] + extra, fs, os).effect == Some(SetPermissions(file, v))
      <==> file in fs && ParseMode(mode) == Ok(v)
    ensures Run(["chmod", mode, file] + extra, fs, os).effect.None?
      <==> file !in fs || ParseMode(mode).Err?
  {
    ExtraArgumentsIgnored(Chmod(file, mode), extra);
    assert ArgumentsFor(Chmod(file, mode)) == ["chmod", mode, file];
  }

  /** Bits above the nine permission bits pass straight through: `chmod 4755 f` asks for
      the mode 0o4755, not 0o755. */
  lemma ChmodDoesNotMask(file: string, fs: FileSystem, os: Result<(), IoError>)
    requires file in fs
    ensures Run(["chmod", "4755", file], fs, os).effect == Some(SetPermissions(file, 0x9ED))
  {
    ParseFourSevenFiveFive();
    RunArgumentsFor(Chmod(file, "4755"), fs, os);
  }

  /** `chmod 755` on an existing file succeeds and sets a mode whose nine permission bits
      (the mode modulo 0o1000) read 0o755. */
  lemma ChmodSevenFiveFive(file: string, fs: FileSystem)
    requires file in fs
    ensures Run(["chmod", "755", file], fs, Ok(())) == Report(["Permissions changed successfully"], [], Some(SetPermissions(file, 0x1ED)))
    ensures var effect := Run(["chmod", "755", file], fs, Ok(())).effect;
      effect.Some? && effect.value.SetPermissions? && effect.value.mode as int % 0x200 == 0x1ED
  {
    ParseSevenFiveFive();
  }

  /** `copy` always asks the operating system to copy, then prints the success line or
      the prefixed error it answers with. */
  lemma CopyOutcome(source: string, destination: string, fs: FileSystem, os: Result<(), IoError>)
    ensures Run(["copy", source, destination], fs, os) == match os
      case Ok(_) => Report(["File copied successfully"], [], Some(CopyFile(source, destination)))
      case Err(e) => Report([], ["Error copying file: " + e.message], Some(CopyFile(source, destination)))
  {
    RunArgumentsFor(Copy(source, destination), fs, os);
  }

  /** `move` always asks the operating system to rename, then prints the success line or
      the prefixed error it answers with. */
  lemma MoveOutcome(source: string, destination: string, fs: FileSystem, os: Result<(), IoError>)
    ensures Run(["move", source, destination], fs, os) == match os
      case Ok(_) => Report(["File moved successfully"], [], Some(Rename(source, destination)))
      case Err(e) => Report([], ["Error moving file: " + e.message], Some(Rename(source, destination)))
  {
    RunArgumentsFor(Move(source, destination), fs, os);
  }

  /** `delete` always asks the operating system to remove the file, then prints the
      success line or the prefixed error it answers with. */
  lemma DeleteOutcome(file: string, fs: FileSystem, os: Result<(), IoError>)
    ensures Run(["delete", file], fs, os) == match os
      case Ok(_) => Report(["File deleted successfully"], [], Some(RemoveFile(file)))
      case Err(e) => Report([], ["Error deleting file: " + e.message], Some(RemoveFile(file)))
  {
    RunArgumentsFor(Delete(file), fs, os);
  }

  /** `symlink` to an existing target asks the operating system for the link, then prints
      the success line or the prefixed error it answers with. */
  lemma SymlinkToExistingTarget(target: string, link: string, fs: FileSystem, os: Result<(), IoError>)
    requires target in fs
    ensures Run(["symlink", target, link], fs, os) == match os
      case Ok(_) => Report(["Symlink created successfully"], [], Some(CreateSymlink(target, link)))
      case Err(e) => Report([], ["Error creating symlink: " + e.message], Some(CreateSymlink(target, link)))
  {
    RunArgumentsFor(Symlink(target, link), fs, os);
  }

  /** `chmod <mode> <file>`: a missing file is reported first, then a malformed mode;
      otherwise the parsed mode is requested and the success line or the prefixed error
      of the operating system is printed. */
  lemma ChmodOutcome(mode: string, file: string, fs: FileSystem, os: Result<(), IoError>)
    ensures Run(["chmod", mode, file], fs, os) ==
      if file !in fs then Report([], ["Error changing permissions: " + MissingPathError.message], None)
      else match ParseMode(mode)
        case Err(_) => Report([], ["Error changing permissions: " + InvalidModeError.message], None)
        case Ok(v) => Perform(SetPermissions(file, v), os, "Permissions changed successfully", "Error changing permissions: ")
  {
    RunArgumentsFor(Chmod(file, mode), fs, os);
    assert ArgumentsFor(Chmod(file, mode)) == ["chmod", mode, file];
  }

  /** A symbolic link to a missing target is refused before any call, with a message
      naming the target. */
  lemma SymlinkNeedsExistingTarget(target: string, link: string, fs: FileSystem, os: Result<(), IoError>)
    requires target !in fs
    ensures Run(["symlink", target, link], fs, os)
      == Report([], ["Error creating symlink: Target '" + target + "' not found"], None)
  {
    ParseArgumentsFor(Symlink(target, link));
    assert "Error creating symlink: " + ("Target '" + target + "' not found")
      == "Error creating symlink: Target '" + target + "' not found";
  }

  /** The recursive listing of a missing directory prints no line and reports `NotFound`;
      of an existing one it prints exactly the walk. */
  lemma ListRecursiveOutcome(dir: string, e: Option<string>, n: Option<string>, fs: FileSystem, os: Result<(), IoError>)
    ensures var r := Run(ArgumentsFor(ListRecursive(dir, e, n)), fs, os);
      && r.effect.None?
      && (dir !in fs ==> r == Report([], ["Error listing directory: " + ("Directory '" + dir + "' not found")], None))
      && (dir in fs ==> r == Report(Walker.VisitDirs(dir, fs[dir], 0, e, n), [], None))
  {
    RunArgumentsFor(ListRecursive(dir, e, n), fs, os);
  }

  /** `list` prints the names of a directory's entries, and reports `NotFound` for a
      missing path or a path that is not a directory. */
  lemma ListOutcome(dir: string, fs: FileSystem, os: Result<(), IoError>)
    ensures var r := Run(["list", dir], fs, os);
      && r.effect.None?
      && (dir in fs && fs[dir].Dir? ==>
            && r.stderr == []
            && |r.stdout| == |fs[dir].children|
            && forall i :: 0 <= i < |r.stdout| ==> r.stdout[i] == fs[dir].children[i].name)
      && (dir !in fs || fs[dir].File? ==> r == Report([], ["Error listing files: Directory not found"], None))
  {
    ParseArgumentsFor(List(dir));
    assert "Error listing files: " + "Directory not found" == "Error listing files: Directory not found";
  }
}

=== FILE: dispatch.dfy ===
/** The argument dispatcher of `main`: the arguments after the program name become one
    command, or a usage error that stops the program before any filesystem call. */
module Dispatch {
  import opened Wrappers

  datatype Command =
    | List(dir: string)
    | Copy(source: string, destination: string)
    | Move(source: string, destination: string)
    | Delete(file: string)
    | Symlink(target: string, link: string)
    | ListRecursive(dir: string, extension: Option<string>, name: Option<string>)
    | Chmod(file: string, mode: string)

  datatype UsageError =
    | NoCommand
    | UnknownCommand(command: string)
    | MissingOperands(usage: string)
    | MissingFlagValue(flag: string)
    | UnknownArgument(argument: string)

  const AvailableCommands: string := "Available commands: list, copy, move, delete, symlink, list_recursive, chmod"

  /** The line `main` writes to standard error for each usage error (the doubled `n` of
      "Unknownn" is the program's own spelling). */
  function Message(err: UsageError): string {
    match err
    case NoCommand => "No command provided. " + AvailableCommands
    case UnknownCommand(c) => "Unknownn command: " + c + ". " + AvailableCommands
    case MissingOperands(usage) => usage
    case MissingFlagValue(flag) => "Missing value for " + flag
    case UnknownArgument(arg) => "Unknown argument: " + arg
  }

  /** The command words `main` recognises. */
  predicate IsCommandWord(word: string) {
    || word == "list" || word == "copy" || word == "move" || word == "delete"
    || word == "symlink" || word == "list_recursive" || word == "chmod"
  }

  /** How many positional arguments a command word requires (`list` has an optional one). */
  function RequiredOperands(word: string): nat {
    if word == "copy" || word == "move" || word == "symlink" || word == "chmod" then 2
    else if word == "delete" || word == "list_recursive" then 1
    else 0
  }

  /** The usage line printed when a command's positional arguments are missing. */
  function UsageLine(word: string): string {
    if word == "copy" then "Usage: copy <source> <destination>"
    else if word == "move" then "Usage: move <source> <destination>"
    else if word == "delete" then "Usage: delete <file>"
    else if word == "symlink" then "Usage: symlink <target> <link>"
    else if word == "list_recursive" then "Usage: list_recursive <directory> [--extension <extension>] [--name <name>]"
    else "Usage: chmod <mode> <file>"
  }

  /** The command word a command is invoked by. */
  function Word(cmd: Command): string {
    match cmd
    case List(_) => "list"
    case Copy(_, _) => "copy"
    case Move(_, _) => "move"
    case Delete(_) => "delete"
    case Symlink(_, _) => "symlink"
    case ListRecursive(_, _, _) => "list_recursive"
    case Chmod(_, _) => "chmod"
  }

  predicate IsFlag(token: string) {
    token == "--extension" || token == "--name"
  }

  /** The flag loop of `list_recursive`: `--extension` and `--name` each take the next
      token verbatim (even one that looks like a flag), a later occurrence replaces an
      earlier one, and a flag without a value or any other token stops parsing. */
  function ParseFlags(tokens: seq<string>, extension: Option<string>, name: Option<string>)
    : (r: Result<(Option<string>, Option<string>), UsageError>)
    ensures r.Err? ==>
      || (r.error.UnknownArgument? && r.error.argument in tokens && !IsFlag(r.error.argument))
      || (r.error.MissingFlagValue? && tokens != [] && tokens[|tokens| - 1] == r.error.flag && IsFlag(r.error.flag))
    ensures r.Ok? && r.value.0.Some? ==> r.value.0 == extension || r.value.0.value in tokens
    ensures r.Ok? && r.value.1.Some? ==> r.value.1 == name || r.value.1.value in tokens
    ensures r.Err? <==> exists i :: FailsAt(tokens, i)
    ensures forall i :: FailsAt(tokens, i) ==> r == Err(FlagError(tokens[i]))
    decreases |tokens|
  {
    if tokens == [] then Ok((extension, name))
    else if tokens[0] == "--extension" then
      if |tokens| < 2 then assert FailsAt(tokens, 0); Err(MissingFlagValue("--extension"))
      else
        assert forall t :: t in tokens[2..] ==> t in tokens;
        FailsAtAfterPair(tokens);
        ParseFlags(tokens[2..], Some(tokens[1]), name)
    else if tokens[0] == "--name" then
      if |tokens| < 2 then assert FailsAt(tokens, 0); Err(MissingFlagValue("--name"))
      else
        assert forall t :: t in tokens[2..] ==> t in tokens;
        FailsAtAfterPair(tokens);
        ParseFlags(tokens[2..], extension, Some(tokens[1]))
    else assert FailsAt(tokens, 0); Err(UnknownArgument(tokens[0]))
  }

  /** The argument position where the flag loop stops with an error: every earlier
      even position holds a flag followed by its value, and this one holds a token that
      is not a flag, or a flag that is the last token. */
  ghost predicate FailsAt(tokens: seq<string>, i: int) {
    && 0 <= i < |tokens|
    && i % 2 == 0
    && (forall j :: 0 <= j < i && j % 2 == 0 ==> IsFlag(tokens[j]))
    && (!IsFlag(tokens[i]) || i == |tokens| - 1)
  }

  /** The usage error for the token at a failing position. */
  function FlagError(token: string): UsageError {
    if IsFlag(token) then MissingFlagValue(token) else UnknownArgument(token)
  }

  /** Past a leading (flag, value) pair, the failing positions are those of the rest,
      shifted by two. */
  lemma FailsAtAfterPair(tokens: seq<string>)
    requires |tokens| >= 2 && IsFlag(tokens[0])
    ensures forall i :: FailsAt(tokens, i) ==> i >= 2 && FailsAt(tokens[2..], i - 2)
    ensures forall k :: FailsAt(tokens[2..], k) ==> FailsAt(tokens, k + 2)
  {
    var rest := tokens[2..];
    forall i | FailsAt(tokens, i) ensures i >= 2 && FailsAt(rest, i - 2) {
      forall j | 0 <= j < i - 2 && j % 2 == 0 ensures IsFlag(rest[j]) {
        assert IsFlag(tokens[j + 2]);
      }
    }
    forall k | FailsAt(rest, k) ensures FailsAt(tokens, k + 2) {
      forall j | 0 <= j < k + 2 && j % 2 == 0 ensures IsFlag(tokens[j]) {
        if j >= 2 {
          assert tokens[j] == rest[j - 2];
        }
      }
    }
  }

  /** The next argument, as `args.next()` yields it. */
  function NextArgument(args: seq<string>): Option<string> {
    if args == [] then None else Some(args[0])
  }

  /** `main`'s dispatch on the first argument. Arguments past the ones a fixed-arity
      command needs are ignored; `list` without a directory lists `.`; `chmod` takes the
      mode first and the file second. */
  function Parse(args: seq<string>): (r: Result<Command, UsageError>)
    ensures args == [] <==> r == Err(NoCommand)
    ensures args != [] && !IsCommandWord(args[0]) ==> r == Err(UnknownCommand(args[0]))
    ensures args != [] && IsCommandWord(args[0]) && |args| < 1 + RequiredOperands(args[0]) ==>
      r == Err(MissingOperands(UsageLine(args[0])))
    ensures r.Ok? ==> args != [] && Word(r.value) == args[0] && |args| >= 1 + RequiredOperands(args[0])
  {
    if args == [] then Err(NoCommand)
    else
      var command := args[0];
      var rest := args[1..];
      if command == "list" then
        Ok(List(NextArgument(rest).UnwrapOr(".")))
      else if command == "copy" then
        if |rest| < 2 then Err(MissingOperands(UsageLine(command))) else Ok(Copy(rest[0], rest[1]))
      else if command == "move" then
        if |rest| < 2 then Err(MissingOperands(UsageLine(command))) else Ok(Move(rest[0], rest[1]))
      else if command == "delete" then
        if |rest| < 1 then Err(MissingOperands(UsageLine(command))) else Ok(Delete(rest[0]))
      else if command == "symlink" then
        if |rest| < 2 then Err(MissingOperands(UsageLine(command))) else Ok(Symlink(rest[0], rest[1]))
      else if command == "list_recursive" then
        if |rest| < 1 then Err(MissingOperands(UsageLine(command)))
        else
          match ParseFlags(rest[1..], None, None)
          case Ok((extension, name)) => Ok(ListRecursive(rest[0], extension, name))
          case Err(e) => Err(e)
      else if command == "chmod" then
        if |rest| < 2 then Err(MissingOperands(UsageLine(command))) else Ok(Chmod(rest[1], rest[0]))
      else Err(UnknownCommand(command))
  }

  // ---------------------------------------------------------------------------
  // The inverse of parsing.

  /** The flags that select the given filters. */
  function FlagTokens(extension: Option<string>, name: Option<string>): seq<string> {
    (if extension.Some? then ["--extension", extension.value] else [])
    + (if name.Some? then ["--name", name.value] else [])
  }

  /** A canonical argument list that invokes `cmd`. */
  function ArgumentsFor(cmd: Command): seq<string> {
    match cmd
    case List(d) => ["list", d]
    case Copy(s, d) => ["copy", s, d]
    case Move(s, d) => ["move", s, d]
    case Delete(f) => ["delete", f]
    case Symlink(t, l) => ["symlink", t, l]
    case ListRecursive(d, e, n) => ["list_recursive", d] + FlagTokens(e, n)
    case Chmod(f, m) => ["chmod", m, f]
  }

  lemma FlagTokensParse(extension: Option<string>, name: Option<string>)
    ensures ParseFlags(FlagTokens(extension, name), None, None) == Ok((extension, name))
  {
    var tail := if name.Some? then ["--name", name.value] else [];
    if name.Some? {
      assert tail[2..] == [];
      assert ParseFlags(tail, extension, None) == Ok((extension, name));
    }
    if extension.Some? {
      assert FlagTokens(extension, name)[2..] == tail;
    }
  }

  /** Every command round-trips through its canonical argument list. */
  lemma ParseArgumentsFor(cmd: Command)
    ensures Parse(ArgumentsFor(cmd)) == Ok(cmd)
  {
    if cmd.ListRecursive? {
      var args := ArgumentsFor(cmd);
      assert args[1..][1..] == FlagTokens(cmd.extension, cmd.name);
      FlagTokensParse(cmd.extension, cmd.name);
    }
  }

  /** For every command except `list_recursive`, tokens after its positional arguments
      are ignored. */
  lemma ExtraArgumentsIgnored(cmd: Command, extra: seq<string>)
    requires !cmd.ListRecursive?
    ensures Parse(ArgumentsFor(cmd) + extra) == Ok(cmd)
  {
    var args := ArgumentsFor(cmd) + extra;
    assert args[0] == Word(cmd);
    assert args[1..] == ArgumentsFor(cmd)[1..] + extra;
  }

  /** `list` alone lists the current directory. */
  lemma ListDefaultsToCurrentDirectory()
    ensures Parse(["list"]) == Ok(List("."))
  {
  }

  // ---------------------------------------------------------------------------
  // The flag loop against a reference reading of its input.

  /** The tokens form (flag, value) pairs whose first components are all flags. */
  ghost predicate WellFormedFlags(tokens: seq<string>) {
    |tokens| % 2 == 0 && forall i :: 0 <= i < |tokens| && i % 2 == 0 ==> IsFlag(tokens[i])
  }

  /** The value of the last pair whose flag is `flag`, or `default` if there is none. */
  function LastValue(flag: string, tokens: seq<string>, default: Option<string>): Option<string>
    requires |tokens| % 2 == 0
    decreases |tokens|
  {
    if tokens == [] then default
    else if tokens[|tokens| - 2] == flag then Some(tokens[|tokens| - 1])
    else LastValue(flag, tokens[..|tokens| - 2], default)
  }

  lemma {:induction false} LastValueFront(flag: string, f: string, v: string, rest: seq<string>, default: Option<string>)
    requires |rest| % 2 == 0
    ensures LastValue(flag, [f, v] + rest, default) == LastValue(flag, rest, if f == flag then Some(v) else default)
    decreases |rest|
  {
    var all := [f, v] + rest;
    if rest != [] {
      var m := |rest|;
      assert all[|all| - 2] == rest[m - 2] && all[|all| - 1] == rest[m - 1];
      assert all[..|all| - 2] == [f, v] + rest[..m - 2];
      LastValueFront(flag, f, v, rest[..m - 2], default);
    } else {
      assert all == [f, v];
    }
  }

  lemma WellFormedFront(f: string, v: string, rest: seq<string>)
    ensures WellFormedFlags([f, v] + rest) <==> IsFlag(f) && WellFormedFlags(rest)
  {
    var all := [f, v] + rest;
    if IsFlag(f) && WellFormedFlags(rest) {
      forall i | 0 <= i < |all| && i % 2 == 0 ensures IsFlag(all[i]) {
        if i >= 2 {
          assert all[i] == rest[i - 2];
        }
      }
    }
    if WellFormedFlags(all) {
      assert all[0] == f;
      forall i | 0 <= i < |rest| && i % 2 == 0 ensures IsFlag(rest[i]) {
        assert all[i + 2] == rest[i];
      }
    }
  }

  /** The flag loop succeeds exactly on well-formed (flag, value) pairs, and then each
      filter holds the value of its last occurrence. */
  lemma {:induction false} ParseFlagsMeaning(tokens: seq<string>, extension: Option<string>, name: Option<string>)
    ensures ParseFlags(tokens, extension, name).Ok? <==> WellFormedFlags(tokens)
    ensures WellFormedFlags(tokens) ==>
      ParseFlags(tokens, extension, name) == Ok((LastValue("--extension", tokens, extension), LastValue("--name", tokens, name)))
    decreases |tokens|
  {
    if tokens == [] {
    } else if |tokens| == 1 {
      assert !WellFormedFlags(tokens);
    } else {
      var f, v, rest := tokens[0], tokens[1], tokens[2..];
      assert tokens == [f, v] + rest;
      WellFormedFront(f, v, rest);
      if IsFlag(f) {
        var e' := if f == "--extension" then Some(v) else extension;
        var n' := if f == "--name" then Some(v) else name;
        ParseFlagsMeaning(rest, e', n');
        if |rest| % 2 == 0 {
          LastValueFront("--extension", f, v, rest, extension);
          LastValueFront("--name", f, v, rest, name);
        }
      }
    }
  }

  /** `list_recursive <dir>` followed by flag tokens succeeds exactly when the tokens
      form (flag, value) pairs, and then carries each flag's last value; otherwise it
      reports the token at the failing position. */
  lemma ListRecursiveParse(dir: string, tokens: seq<string>)
    ensures Parse(["list_recursive", dir] + tokens).Ok? <==> WellFormedFlags(tokens)
    ensures WellFormedFlags(tokens) ==>
      Parse(["list_recursive", dir] + tokens) == Ok(ListRecursive(dir, LastValue("--extension", tokens, None), LastValue("--name", tokens, None)))
    ensures forall i :: FailsAt(tokens, i) ==> Parse(["list_recursive", dir] + tokens) == Err(FlagError(tokens[i]))
  {
    var args := ["list_recursive", dir] + tokens;
    assert args[1..][1..] == tokens;
    ParseFlagsMeaning(tokens, None, None);
  }

  /** A flag's value is taken verbatim even when it looks like a flag, and a repeated
      flag keeps its last value. */
  lemma FlagValueExamples()
    ensures Parse(["list_recursive", "src", "--name", "--extension"]) == Ok(ListRecursive("src", None, Some("--extension")))
    ensures Parse(["list_recursive", "src", "--extension", "rs", "--extension", "txt"]) == Ok(ListRecursive("src", Some("txt"), None))
  {
    var a := ["list_recursive", "src", "--name", "--extension"];
    assert a[1..][1..] == ["--name", "--extension"];
    var b := ["list_recursive", "src", "--extension", "rs", "--extension", "txt"];
    assert b[1..][1..] == ["--extension", "rs", "--extension", "txt"];
    assert b[1..][1..][2..] == ["--extension", "txt"];
  }

  /** A flag without a value, or an unrecognised token, aborts the command. */
  lemma FlagErrorExamples()
    ensures Parse(["list_recursive", "src", "--name"]) == Err(MissingFlagValue("--name"))
    ensures Parse(["list_recursive", "src", "-x"]) == Err(UnknownArgument("-x"))
  {
    var a := ["list_recursive", "src", "--name"];
    assert a[1..][1..] == ["--name"];
    var b := ["list_recursive", "src", "-x"];
    assert b[1..][1..] == ["-x"];
  }
}

=== FILE: filters.dfy ===
/** The filter predicate of the recursive listing (`apply_filters`): an optional
    extension filter and an optional name-substring filter, combined by AND, both
    exact and case-sensitive. */
module Filters {
  import opened Wrappers
  import opened Paths

  /** Reference reading of "`e` is the extension of the file name `f`", stated character
      by character: `f` ends in a dot followed by exactly `e`, `e` holds no further dot,
      the dot is not the first character, and `f` is not `..`. */
  ghost predicate IsExtensionOf(f: string, e: string) {
    && f != ".."
    && '.' !in e
    && |e| + 1 < |f|
    && f[|f| - |e| - 1] == '.'
    && f[|f| - |e|..] == e
  }

  /** Reference meaning of the extension filter `e` for a path. */
  ghost predicate PassesExtension(path: string, e: string) {
    FileName(path).Some? && IsExtensionOf(FileName(path).value, e)
  }

  /** Reference meaning of the name filter `n`: it occurs somewhere in the final component. */
  ghost predicate PassesName(path: string, n: string) {
    FileName(path).Some? && exists i :: OccursAt(FileName(path).value, n, i)
  }

  /** `Extension` agrees with the character-level reading of an extension. */
  lemma ExtensionCharacterised(f: string, e: string)
    ensures Extension(f) == Some(e) <==> IsExtensionOf(f, e)
  {
    if IsExtensionOf(f, e) {
      var stem := f[..|f| - |e| - 1];
      assert f == stem + "." + e;
      ExtensionOfDottedName(stem, e);
    }
  }

  /** `path.extension().and_then(to_str) == Some(e)`. */
  function ExtensionTest(path: string, e: string): (b: bool)
    ensures b <==> PassesExtension(path, e)
  {
    match FileName(path)
    case None => false
    case Some(f) => ExtensionCharacterised(f, e); Extension(f) == Some(e)
  }

  /** `path.file_name().and_then(to_str).map_or(false, |name| name.contains(n))`. */
  function NameTest(path: string, n: string): (b: bool)
    ensures b <==> PassesName(path, n)
  {
    match FileName(path)
    case None => false
    case Some(f) => Contains(f, n)
  }

  /** `apply_filters`: start from `true`, AND in the extension test when an extension
      filter is given, then AND in the name test when a name filter is given. A path
      without a final component fails whichever filter is present. */
  function ApplyFilters(path: string, extensionFilter: Option<string>, nameFilter: Option<string>): (matches: bool)
    ensures matches <==>
      && (extensionFilter.Some? ==> PassesExtension(path, extensionFilter.value))
      && (nameFilter.Some? ==> PassesName(path, nameFilter.value))
  {
    var afterExtension :=
      if extensionFilter.Some? then ExtensionTest(path, extensionFilter.value) else true;
    if nameFilter.Some? then afterExtension && NameTest(path, nameFilter.value) else afterExtension
  }

  /** The filters' verdict on an entry, read off the entry's own name. */
  predicate NameVerdict(name: string, e: Option<string>, n: Option<string>) {
    (e.None? || Extension(name) == e) && (n.None? || Contains(name, n.value))
  }

  /** A path whose final component is `name` gets the verdict of that name. */
  lemma VerdictOfFileName(path: string, name: string, e: Option<string>, n: Option<string>)
    requires FileName(path) == Some(name)
    ensures ApplyFilters(path, e, n) <==> NameVerdict(name, e, n)
  {
    if e.Some? {
      ExtensionCharacterised(name, e.value);
    }
  }

  /** With no filter at all every path is listed. */
  lemma NoFiltersPassEverything(path: string)
    ensures ApplyFilters(path, None, None)
  {
  }

  /** With both filters the verdict is the AND of each filter applied alone, so adding
      a filter never turns a rejection into a match. */
  lemma FiltersCompose(path: string, e: Option<string>, n: Option<string>)
    ensures ApplyFilters(path, e, n) == (ApplyFilters(path, e, None) && ApplyFilters(path, None, n))
  {
  }

  /** For an entry path the verdict depends only on the entry's own name, never on the
      directory it was found in. */
  lemma FilterSeesOnlyTheEntryName(dir1: string, dir2: string, name: string, e: Option<string>, n: Option<string>)
    requires IsEntryName(name)
    ensures ApplyFilters(Join(dir1, name), e, n) == ApplyFilters(Join(dir2, name), e, n)
    ensures ApplyFilters(Join(dir1, name), e, None) <==> e.None? || Extension(name) == e
    ensures ApplyFilters(Join(dir1, name), None, n) <==> n.None? || Contains(name, n.value)
  {
    FileNameOfJoin(dir1, name);
    FileNameOfJoin(dir2, name);
    VerdictOfFileName(Join(dir1, name), name, e, n);
    VerdictOfFileName(Join(dir2, name), name, e, n);
    VerdictOfFileName(Join(dir1, name), name, e, None);
    VerdictOfFileName(Join(dir1, name), name, None, n);
  }

  /** An entry `stem.ext` (one dot, not leading) passes an extension filter exactly when
      the filter is `ext`, wherever the entry sits. */
  lemma DottedNameFilter(dir: string, stem: string, ext: string, e: string, path: string)
    requires stem != [] && '.' !in stem && '.' !in ext && '/' !in stem && '/' !in ext
    requires path == Join(dir, stem + "." + ext)
    ensures ApplyFilters(path, Some(e), None) <==> e == ext
  {
    DottedNameIsEntryName(stem, ext);
    ExtensionOfDottedName(stem, ext);
    FilterSeesOnlyTheEntryName(dir, dir, stem + "." + ext, Some(e), None);
  }

  lemma DottedNameIsEntryName(stem: string, ext: string)
    requires stem != [] && '.' !in stem && '/' !in stem && '/' !in ext
    ensures IsEntryName(stem + "." + ext) && stem + "." + ext != ".."
  {
    var name := stem + "." + ext;
    assert name[0] == stem[0];
    forall i | 0 <= i < |name|
      ensures name[i] != '/'
    {
      if i > |stem| { assert name[i] == ext[i - |stem| - 1]; }
    }
  }

  /** The name filter on an entry path is a containment test on the entry's name. */
  lemma NameFilterVerdict(dir: string, name: string, sub: string, path: string)
    requires IsEntryName(name) && path == Join(dir, name)
    ensures ApplyFilters(path, None, Some(sub)) <==> Contains(name, sub)
  {
    FilterSeesOnlyTheEntryName(dir, dir, name, None, Some(sub));
  }

  /** A name without a dot, or whose only dot is its first character, never passes an
      extension filter, whatever the filter string. */
  lemma NoExtensionNeverPasses(path: string, e: string, n: Option<string>)
    requires FileName(path).Some?
    requires var f := FileName(path).value; '.' !in f || (f[0] == '.' && '.' !in f[1..])
    ensures !ApplyFilters(path, Some(e), n)
  {
    ExtensionCharacterised(FileName(path).value, e);
  }

  /** The extension filter is case-sensitive: `notes.TXT` is not selected by `txt`. */
  lemma ExtensionFilterIsCaseSensitive()
    ensures !ApplyFilters("docs/notes.TXT", Some("txt"), None)
  {
    DottedNameFilter("docs", "notes", "TXT", "txt", "docs/notes.TXT");
  }

  /** The name filter is case-sensitive: `README` is not selected by `readme`. */
  lemma NameFilterIsCaseSensitive()
    ensures !ApplyFilters("docs/README", None, Some("readme"))
  {
    NameFilterVerdict("docs", "README", "readme", "docs/README");
    ContainsSameLength("README", "readme");
  }
}

=== FILE: io_errors.dfy ===
/** The part of `std::io::Error` the tool observes: an error kind and the text
    its `Display` implementation prints. */
module IoErrors {

  datatype ErrorKind = NotFound | InvalidInput

  datatype IoError = IoError(kind: ErrorKind, message: string)

  /** The error `fs::metadata` reports for a path that does not exist. */
  const MissingPathError: IoError := IoError(NotFound, "No such file or directory (os error 2)")
}

=== FILE: mode.dfy ===
/** The permission-mode parser (`parse_mode`), which is `u32::from_str_radix(mode, 8)`
    with every parse failure turned into an `InvalidInput` error. */
module Mode {
  import opened Wrappers
  import opened IoErrors

  /** Rust's `u32`. */
  newtype u32 = x: int | 0 <= x < 0x1_0000_0000

  const U32Limit: int := 0x1_0000_0000

  /** The error `parse_mode` returns for any malformed mode string. */
  const InvalidModeError: IoError := IoError(InvalidInput, "Invalid mode format")

  predicate IsOctalDigit(c: char) {
    '0' <= c <= '7'
  }

  predicate AllOctal(digits: string) {
    forall i :: 0 <= i < |digits| ==> IsOctalDigit(digits[i])
  }

  function DigitValue(c: char): (v: nat)
    requires IsOctalDigit(c)
    ensures v < 8
  {
    (c as int) - ('0' as int)
  }

  /** The digit that stands for `v`. */
  function DigitChar(v: nat): (c: char)
    requires v < 8
    ensures IsOctalDigit(c) && DigitValue(c) == v
  {
    ('0' as int + v) as char
  }

  /** Reference value of `digits` read in base 8 after the already-read value `acc`,
      defined from the last digit backwards. */
  function OctalValue(acc: nat, digits: string): nat
    requires AllOctal(digits)
    decreases |digits|
  {
    if digits == [] then acc
    else OctalValue(acc, digits[..|digits| - 1]) * 8 + DigitValue(digits[|digits| - 1])
  }

  /** Reading one more digit at the front is the same as folding it into `acc` first. */
  lemma {:induction false} OctalValueFront(acc: nat, c: char, rest: string)
    requires IsOctalDigit(c) && AllOctal(rest)
    ensures AllOctal([c] + rest)
    ensures OctalValue(acc, [c] + rest) == OctalValue(acc * 8 + DigitValue(c), rest)
    decreases |rest|
  {
    var s := [c] + rest;
    assert AllOctal(s) by {
      forall i | 0 <= i < |s| ensures IsOctalDigit(s[i]) {
        if i > 0 { assert s[i] == rest[i - 1]; }
      }
    }
    if rest != [] {
      var init := rest[..|rest| - 1];
      assert s[..|s| - 1] == [c] + init;
      assert AllOctal(init) by {
        forall i | 0 <= i < |init| ensures IsOctalDigit(init[i]) {
          assert init[i] == rest[i];
        }
      }
      OctalValueFront(acc, c, init);
    }
  }

  /** The value never drops below the part already read. */
  lemma {:induction false} OctalValueGrows(acc: nat, digits: string)
    requires AllOctal(digits)
    ensures OctalValue(acc, digits) >= acc
    decreases |digits|
  {
    if digits != [] {
      var init := digits[..|digits| - 1];
      assert AllOctal(init) by {
        forall i | 0 <= i < |init| ensures IsOctalDigit(init[i]) {
          assert init[i] == digits[i];
        }
      }
      OctalValueGrows(acc, init);
    }
  }

  /** The digit loop of `from_str_radix`: multiply by 8 and add each digit, failing on
      a character that is not an octal digit or as soon as the value leaves `u32`. */
  function Accumulate(acc: u32, digits: string): (r: Option<u32>)
    ensures r.Some? <==> AllOctal(digits) && OctalValue(acc as nat, digits) < U32Limit
    ensures r.Some? ==> r.value as int == OctalValue(acc as nat, digits)
    decreases |digits|
  {
    if digits == [] then Some(acc)
    else if !IsOctalDigit(digits[0]) then None
    else
      var next := acc as int * 8 + DigitValue(digits[0]);
      var rest := digits[1..];
      assert digits == [digits[0]] + rest;
      if !AllOctal(rest) then
        assert !AllOctal(digits) by {
          var i :| 0 <= i < |rest| && !IsOctalDigit(rest[i]);
          assert digits[i + 1] == rest[i];
        }
        None
      else
        OctalValueFront(acc as nat, digits[0], rest);
        if next >= U32Limit then
          OctalValueGrows(next, rest);
          None
        else
          Accumulate(next as u32, rest)
  }

  /** The digits of a mode string once one optional leading `+` is dropped. */
  function Digits(mode: string): string {
    if |mode| > 0 && mode[0] == '+' then mode[1..] else mode
  }

  /** What `u32::from_str_radix` accepts in base 8: an optional single `+`, then one or
      more digits `0`-`7` (leading zeros allowed). */
  predicate IsOctalNumeral(mode: string) {
    Digits(mode) != [] && AllOctal(Digits(mode))
  }

  /** `u32::from_str_radix(src, 8)`, keeping only whether it succeeded. */
  function FromStrRadix8(src: string): Option<u32> {
    if src == [] then None
    else if src == "+" || src == "-" then None
    else if src[0] == '+' then Accumulate(0, src[1..])
    else Accumulate(0, src)
  }

  /** `parse_mode`: the base-8 value of a valid octal numeral that fits in 32 bits, and
      `InvalidInput` for everything else (empty text, a sign alone, a `-`, a digit 8 or
      9, any other character, or a value of 2^32 or more). */
  function ParseMode(mode: string): (r: Result<u32, IoError>)
    ensures r.Ok? <==> IsOctalNumeral(mode) && OctalValue(0, Digits(mode)) < U32Limit
    ensures r.Ok? ==> r.value as int == OctalValue(0, Digits(mode))
    ensures r.Err? ==> r.error == InvalidModeError
  {
    match FromStrRadix8(mode)
    case Some(m) => Ok(m)
    case None => Err(InvalidModeError)
  }

  /** The canonical base-8 spelling of `v`: no sign and no leading zeros. */
  function FormatOctal(v: nat): (s: string)
    ensures s != [] && AllOctal(s)
    decreases v
  {
    if v < 8 then [DigitChar(v)]
    else
      var s := FormatOctal(v / 8) + [DigitChar(v % 8)];
      assert forall i :: 0 <= i < |s| - 1 ==> s[i] == FormatOctal(v / 8)[i];
      s
  }

  /** Reading back the canonical spelling gives the number. */
  lemma {:induction false} OctalValueOfFormat(v: nat)
    ensures OctalValue(0, FormatOctal(v)) == v
    decreases v
  {
    var s := FormatOctal(v);
    if v >= 8 {
      assert s[..|s| - 1] == FormatOctal(v / 8);
      OctalValueOfFormat(v / 8);
    }
  }

  /** Every 32-bit mode survives a round trip through its octal spelling. */
  lemma ParseFormatRoundTrip(v: u32)
    ensures ParseMode(FormatOctal(v as nat)) == Ok(v)
  {
    OctalValueOfFormat(v as nat);
  }

  /** A single leading `+` does not change the result. */
  lemma PlusSignIgnored(mode: string)
    requires mode == [] || mode[0] != '+'
    ensures ParseMode("+" + mode) == ParseMode(mode)
  {
    assert Digits("+" + mode) == mode;
  }

  /** Leading zeros do not change the result. */
  lemma LeadingZeroIgnored(digits: string)
    requires digits != [] && digits[0] != '+'
    ensures ParseMode("0" + digits) == ParseMode(digits)
  {
    var s := "0" + digits;
    assert Digits(s) == [s[0]] + digits;
    if AllOctal(digits) {
      OctalValueFront(0, '0', digits);
    } else {
      var i :| 0 <= i < |digits| && !IsOctalDigit(digits[i]);
      assert s[i + 1] == digits[i];
    }
  }

  /** `755` is read as the octal number 0o755, as `change_permissions(file, "755")` expects. */
  lemma ParseSevenFiveFive()
    ensures ParseMode("755") == Ok(0x1ED)
  {
    assert "755"[..2] == "75" && "75"[..1] == "7" && "7"[..0] == [];
  }

  /** A fourth digit sets the bits above the nine permission bits: `4755` is 0o4755. */
  lemma ParseFourSevenFiveFive()
    ensures ParseMode("4755") == Ok(0x9ED)
  {
    assert "4755"[..3] == "475" && "475"[..2] == "47" && "47"[..1] == "4" && "4"[..0] == [];
  }

  /** Digits outside 0-7, a minus sign, and an empty string are rejected. */
  lemma RejectedModes()
    ensures ParseMode("8") == Err(InvalidModeError)
    ensures ParseMode("-7") == Err(InvalidModeError)
    ensures ParseMode("") == Err(InvalidModeError)
    ensures ParseMode("+") == Err(InvalidModeError)
  {
    assert !IsOctalDigit("-7"[0]);
  }

  /** The spelling of any value of 2^32 or more is rejected: `from_str_radix` reports
      the overflow instead of wrapping, so no mode is silently truncated. */
  lemma FormatOverflowRejected(v: nat)
    requires v >= U32Limit
    ensures ParseMode(FormatOctal(v)) == Err(InvalidModeError)
  {
    OctalValueOfFormat(v);
  }
}

=== FILE: paths.dfy ===
/** The pieces of `std::path::Path` the tool relies on: joining an entry name onto
    its directory, the final component of a path, a file name's extension, and
    `str::contains` for the name filter. Paths and names are strings of characters. */
module Paths {
  import opened Wrappers

  /** A name as `read_dir` reports it for one directory entry. */
  predicate IsEntryName(name: string) {
    name != [] && name != "." && name != ".." && '/' !in name
  }

  /** `dir.join(name)` for a single relative component (the behaviour of `PathBuf::push`):
      a separator goes in only when the parent is non-empty and does not already end in one. */
  function Join(parent: string, name: string): (p: string)
    ensures parent <= p
    ensures IsSuffix(name, p)
    ensures |p| == |parent| + |name| || (|p| == |parent| + |name| + 1 && p[|parent|] == '/')
    ensures parent != [] ==> p[|p| - |name| - 1] == '/'
    ensures |p| == |parent| + |name| <==> parent == [] || parent[|parent| - 1] == '/'
  {
    if parent == [] || parent[|parent| - 1] == '/' then parent + name
    else parent + "/" + name
  }

  /** `s` is the tail end of `path`. */
  predicate IsSuffix(s: string, path: string) {
    |s| <= |path| && path[|path| - |s|..] == s
  }

  /** The longest suffix of `path` that contains no separator. */
  function FinalSegment(path: string): (s: string)
    ensures IsSuffix(s, path)
    ensures '/' !in s
    ensures |s| == |path| || path[|path| - |s| - 1] == '/'
    decreases |path|
  {
    if path == [] || path[|path| - 1] == '/' then []
    else FinalSegment(path[..|path| - 1]) + [path[|path| - 1]]
  }

  /** `Path::file_name`: the final component, or nothing when the path ends in a
      separator, in `.` or in `..`. */
  function FileName(path: string): (r: Option<string>)
    ensures r.Some? ==> IsEntryName(r.value)
    ensures r.Some? ==> IsSuffix(r.value, path)
  {
    var s := FinalSegment(path);
    if s == [] || s == "." || s == ".." then None else Some(s)
  }

  /** The position of the last occurrence of `c` in `s`. */
  function LastIndexOf(s: string, c: char): (r: Option<nat>)
    ensures r.None? <==> c !in s
    ensures r.Some? ==> r.value < |s| && s[r.value] == c && c !in s[r.value + 1..]
    decreases |s|
  {
    if s == [] then None
    else if s[|s| - 1] == c then Some(|s| - 1)
    else LastIndexOf(s[..|s| - 1], c)
  }

  /** The position of the first occurrence of `c` in `s`. */
  function FirstIndexOf(s: string, c: char): (r: Option<nat>)
    ensures r.None? <==> c !in s
    ensures r.Some? ==> r.value < |s| && s[r.value] == c && c !in s[..r.value]
    decreases |s|
  {
    if s == [] then None
    else if s[0] == c then Some(0)
    else
      match FirstIndexOf(s[1..], c)
      case None => None
      case Some(i) =>
        assert s[..i + 1] == [s[0]] + s[1..][..i];
        Some(i + 1)
  }

  /** `Path::extension` applied to a file name (`rsplit_file_at_dot`): the text after
      the last `.`, except that `..`, a name without a dot, and a name whose only dot
      is its first character have no extension. */
  function Extension(fileName: string): (r: Option<string>)
    ensures r.None? <==>
      || fileName == ".."
      || '.' !in fileName
      || (fileName[0] == '.' && '.' !in fileName[1..])
    ensures r.Some? ==>
      && fileName != ".."
      && |r.value| + 1 < |fileName|
      && fileName[|fileName| - |r.value| - 1] == '.'
      && fileName[|fileName| - |r.value|..] == r.value
      && '.' !in r.value
  {
    if fileName == ".." then None
    else
      match LastIndexOf(fileName, '.')
      case None => None
      case Some(i) =>
        if i == 0 then None
        else
          assert fileName[1..][i - 1] == '.';
          Some(fileName[i + 1..])
  }

  /** `sub` occurs in `s` starting at position `i`. */
  predicate OccursAt(s: string, sub: string, i: int) {
    0 <= i && i + |sub| <= |s| && s[i..i + |sub|] == sub
  }

  /** `str::contains`: a left-to-right scan for `sub` in `s`. */
  function Contains(s: string, sub: string): (b: bool)
    ensures b <==> exists i :: OccursAt(s, sub, i)
    decreases |s|
  {
    if sub <= s then
      assert OccursAt(s, sub, 0);
      true
    else if s == [] then
      assert forall i :: !OccursAt(s, sub, i);
      false
    else
      var b := Contains(s[1..], sub);
      if b then
        var i :| OccursAt(s[1..], sub, i);
        assert s[1..][i..i + |sub|] == s[i + 1..i + 1 + |sub|];
        assert OccursAt(s, sub, i + 1);
        b
      else
        assert forall i :: OccursAt(s, sub, i) ==> i > 0 && OccursAt(s[1..], sub, i - 1) by {
          forall i | OccursAt(s, sub, i)
            ensures i > 0 && OccursAt(s[1..], sub, i - 1)
          {
            assert s[1..][i - 1..i - 1 + |sub|] == s[i..i + |sub|];
          }
        }
        b
  }

  /** Between strings of equal length, containment is equality. */
  lemma ContainsSameLength(s: string, sub: string)
    requires |s| == |sub|
    ensures Contains(s, sub) <==> s == sub
  {
    if Contains(s, sub) {
      var i :| OccursAt(s, sub, i);
      assert s[i..i + |sub|] == s;
    } else {
      assert !OccursAt(s, sub, 0);
    }
  }

  /** The final component of a joined entry path is the entry's own name, whatever
      the parent path is. */
  lemma FileNameOfJoin(parent: string, name: string)
    requires IsEntryName(name)
    ensures FileName(Join(parent, name)) == Some(name)
  {
    var p := Join(parent, name);
    var s := FinalSegment(p);
    assert |s| == |name|;
  }

  /** A name made of a non-empty stem, a dot and a dot-free tail has that tail as its
      extension; this is how `file1.txt` gets the extension `txt`. */
  lemma ExtensionOfDottedName(stem: string, ext: string)
    requires stem != [] && '.' !in ext
    requires stem + "." + ext != ".."
    ensures Extension(stem + "." + ext) == Some(ext)
  {
    var name := stem + "." + ext;
    assert name[|stem|] == '.';
    if name[0] == '.' {
      if |stem| == 1 {
        assert ext != [] && name[1..] == "." + ext;
      } else {
        assert name[1..][|stem| - 1] == '.';
      }
    }
    var r := Extension(name);
    assert |r.value| == |ext|;
  }

  /** Only the last dot counts: `archive.tar.gz` has the extension `gz`. */
  lemma ExtensionOfDoubleDotted()
    ensures Extension("archive.tar.gz") == Some("gz")
  {
    ExtensionOfDottedName("archive.tar", "gz");
    assert "archive.tar" + "." + "gz" == "archive.tar.gz";
  }

  /** A name whose single dot leads it, such as `.hidden`, has no extension. */
  lemma HiddenNameHasNoExtension(rest: string)
    requires '.' !in rest
    ensures Extension("." + rest) == None
  {
    assert ("." + rest)[1..] == rest;
  }
}

=== FILE: walker.dfy ===
/** The directory listings: the recursive walk (`list_recursive` / `visit_dirs`) and the
    flat listing (`list_files`). The filesystem below the listed directory is an immutable
    finite tree; the order of a directory's `children` stands for the order in which
    `read_dir` enumerates them. */
module Walker {
  import opened Wrappers
  import opened IoErrors
  import opened Paths
  import opened Filters

  datatype Node = File(name: string) | Dir(name: string, children: seq<Node>)

  /** One entry the walk reaches: the depth it is reported at, the path `entry.path()`
      gives it, and its own name. */
  datatype Entry = Entry(depth: nat, path: string, name: string)

  /** Two spaces per level. */
  function Indent(depth: nat): (s: string)
    ensures |s| == 2 * depth
    ensures forall i :: 0 <= i < |s| ==> s[i] == ' '
  {
    if depth == 0 then [] else "  " + Indent(depth - 1)
  }

  /** The line `visit_dirs` prints for an entry: the indentation, a literal `/`, then the path. */
  function Line(depth: nat, path: string): string {
    Indent(depth) + "/" + path
  }

  /** Reads a printed line back into its depth and path. The indentation holds no `/`, so
      the first `/` of the line is the one the walk put after the indentation. */
  function DecodeLine(line: string): Option<(nat, string)> {
    match FirstIndexOf(line, '/')
    case None => None
    case Some(k) =>
      if k % 2 == 0 && forall i :: 0 <= i < k ==> line[i] == ' ' then Some((k / 2, line[k + 1..]))
      else None
  }

  /** Every printed line can be read back, so the output determines the reported depths
      and paths. */
  lemma LineRoundTrip(depth: nat, path: string)
    ensures DecodeLine(Line(depth, path)) == Some((depth, path))
  {
    var line := Line(depth, path);
    var ind := Indent(depth);
    assert line[2 * depth] == '/';
    assert forall i :: 0 <= i < 2 * depth ==> line[i] == ind[i];
    assert '/' !in line[..2 * depth] by {
      assert line[..2 * depth] == ind;
    }
    assert line[2 * depth + 1..] == path;
  }

  /** `visit_dirs(dir, depth)` for the object `node` found at `dir`: nothing when it is not
      a directory, otherwise the walk over its children. */
  function VisitDirs(dir: string, node: Node, depth: nat, e: Option<string>, n: Option<string>): seq<string>
    decreases node
  {
    if node.Dir? then VisitEntries(dir, node.children, depth, e, n) else []
  }

  /** The loop over `read_dir(dir)`: for each entry, its line when it passes the filters,
      then (for a directory, whether or not it passed) the walk below it one level deeper. */
  function VisitEntries(dir: string, es: seq<Node>, depth: nat, e: Option<string>, n: Option<string>): seq<string>
    decreases es
  {
    if es == [] then []
    else
      var entry := es[0];
      var path := Join(dir, entry.name);
      (if ApplyFilters(path, e, n) then [Line(depth, path)] else [])
      + (if entry.Dir? then VisitDirs(path, entry, depth + 1, e, n) else [])
      + VisitEntries(dir, es[1..], depth, e, n)
  }

  /** `list_recursive`: a root that does not exist fails with `NotFound` before anything
      is printed; otherwise the walk starts at depth 0 below the root, which is itself
      never printed. */
  function ListRecursive(dir: string, root: Option<Node>, e: Option<string>, n: Option<string>): (r: Result<seq<string>, IoError>)
    ensures r.Err? <==> root.None?
    ensures r.Err? ==> r.error.kind == NotFound
    ensures root.Some? && root.value.File? ==> r == Ok([])
  {
    match root
    case None => Err(IoError(NotFound, "Directory '" + dir + "' not found"))
    case Some(node) => Ok(VisitDirs(dir, node, 0, e, n))
  }

  /** The names of a sequence of directory entries, in order. */
  function ChildNames(es: seq<Node>): (names: seq<string>)
    ensures |names| == |es|
    ensures forall i :: 0 <= i < |es| ==> names[i] == es[i].name
  {
    if es == [] then [] else [es[0].name] + ChildNames(es[1..])
  }

  /** `list_files`: one bare name per immediate child of a directory; `NotFound` when the
      path is missing or is not a directory. */
  function ListFiles(dir: string, node: Option<Node>): (r: Result<seq<string>, IoError>)
    ensures r.Ok? <==> node.Some? && node.value.Dir?
    ensures r.Ok? ==> |r.value| == |node.value.children|
    ensures r.Ok? ==> forall i :: 0 <= i < |r.value| ==> r.value[i] == node.value.children[i].name
    ensures r.Err? ==> r.error == IoError(NotFound, "Directory not found")
  {
    match node
    case Some(Dir(_, children)) => Ok(ChildNames(children))
    case _ => Err(IoError(NotFound, "Directory not found"))
  }

  // ---------------------------------------------------------------------------
  // Reference traversal: the entries reached, in pre-order, before any filtering
  // or printing.

  /** Every entry strictly below `node`, in pre-order. */
  function Entries(path: string, node: Node, depth: nat): (xs: seq<Entry>)
    ensures forall x :: x in xs ==> x.depth >= depth && path <= x.path
    decreases node
  {
    if node.Dir? then EntriesOf(path, node.children, depth) else []
  }

  /** Every entry reached from the directory `dir` whose entries are `es`: each entry,
      followed at once by everything below it, then the entries after it. */
  function EntriesOf(dir: string, es: seq<Node>, depth: nat): (xs: seq<Entry>)
    ensures forall x :: x in xs ==> x.depth >= depth && dir <= x.path
    decreases es
  {
    if es == [] then []
    else
      var c := es[0];
      var p := Join(dir, c.name);
      [Entry(depth, p, c.name)] + Entries(p, c, depth + 1) + EntriesOf(dir, es[1..], depth)
  }

  /** Every name below `node` is one `read_dir` can report (the node's own name is not
      printed by a walk started at it, so it is not constrained). */
  predicate WellNamedBelow(node: Node)
    decreases node
  {
    node.Dir? ==> forall c :: c in node.children ==> IsEntryName(c.name) && WellNamedBelow(c)
  }

  /** In a well-named tree, the final component of every entry's path is its own name. */
  lemma {:induction false} EntriesAreNamed(path: string, node: Node, depth: nat)
    requires WellNamedBelow(node)
    ensures forall x :: x in Entries(path, node, depth) ==> FileName(x.path) == Some(x.name)
    decreases node
  {
    if node.Dir? {
      EntriesOfAreNamed(path, node.children, depth);
    }
  }

  lemma {:induction false} EntriesOfAreNamed(dir: string, es: seq<Node>, depth: nat)
    requires forall c :: c in es ==> IsEntryName(c.name) && WellNamedBelow(c)
    ensures forall x :: x in EntriesOf(dir, es, depth) ==> FileName(x.path) == Some(x.name)
    decreases es
  {
    if es != [] {
      var c := es[0];
      assert c in es;
      FileNameOfJoin(dir, c.name);
      EntriesAreNamed(Join(dir, c.name), c, depth + 1);
      assert forall c' :: c' in es[1..] ==> c' in es;
      EntriesOfAreNamed(dir, es[1..], depth);
    }
  }

  /** In a well-named tree, the filters' verdict on every entry the walk reaches depends
      only on that entry's name, never on the directory it was found in. */
  lemma EntryVerdictIsByName(path: string, node: Node, depth: nat, e: Option<string>, n: Option<string>)
    requires WellNamedBelow(node)
    ensures forall x :: x in Entries(path, node, depth) ==> (ApplyFilters(x.path, e, n) <==> NameVerdict(x.name, e, n))
  {
    EntriesAreNamed(path, node, depth);
    forall x | x in Entries(path, node, depth) ensures ApplyFilters(x.path, e, n) <==> NameVerdict(x.name, e, n) {
      VerdictOfFileName(x.path, x.name, e, n);
    }
  }

  /** The entries for which `keep` holds, in order. */
  function Select(xs: seq<Entry>, keep: Entry -> bool): (ys: seq<Entry>)
    ensures |ys| <= |xs|
  {
    if xs == [] then []
    else (if keep(xs[0]) then [xs[0]] else []) + Select(xs[1..], keep)
  }

  /** The entries whose paths pass the filters. */
  function Passing(e: Option<string>, n: Option<string>): Entry -> bool {
    (x: Entry) => ApplyFilters(x.path, e, n)
  }

  /** The printed form of a sequence of entries. */
  function Render(xs: seq<Entry>): (lines: seq<string>)
    ensures |lines| == |xs|
    ensures forall i :: 0 <= i < |xs| ==> lines[i] == Line(xs[i].depth, xs[i].path)
  {
    if xs == [] then [] else [Line(xs[0].depth, xs[0].path)] + Render(xs[1..])
  }

  lemma {:induction false} SelectAppend(xs: seq<Entry>, ys: seq<Entry>, keep: Entry -> bool)
    ensures Select(xs + ys, keep) == Select(xs, keep) + Select(ys, keep)
    decreases |xs|
  {
    if xs == [] {
      assert xs + ys == ys;
    } else {
      var x := xs[0];
      var head := if keep(x) then [x] else [];
      assert (xs + ys)[0] == x;
      assert (xs + ys)[1..] == xs[1..] + ys;
      assert Select(xs + ys, keep) == head + Select(xs[1..] + ys, keep);
      assert Select(xs, keep) == head + Select(xs[1..], keep);
      SelectAppend(xs[1..], ys, keep);
      assert head + (Select(xs[1..], keep) + Select(ys, keep)) == (head + Select(xs[1..], keep)) + Select(ys, keep);
    }
  }

  lemma RenderAppend(xs: seq<Entry>, ys: seq<Entry>)
    ensures Render(xs + ys) == Render(xs) + Render(ys)
  {
    var l := Render(xs + ys);
    var r := Render(xs) + Render(ys);
    assert |l| == |r|;
    forall i | 0 <= i < |l|
      ensures l[i] == r[i]
    {
      if i < |xs| {
        assert (xs + ys)[i] == xs[i];
        assert r[i] == Render(xs)[i];
      } else {
        assert (xs + ys)[i] == ys[i - |xs|];
        assert r[i] == Render(ys)[i - |xs|];
      }
    }
  }

  lemma RenderSelectOfThree(xs: seq<Entry>, ys: seq<Entry>, zs: seq<Entry>, keep: Entry -> bool)
    ensures Render(Select(xs + ys + zs, keep)) == Render(Select(xs, keep)) + Render(Select(ys, keep)) + Render(Select(zs, keep))
  {
    SelectAppend(xs + ys, zs, keep);
    SelectAppend(xs, ys, keep);
    RenderAppend(Select(xs, keep) + Select(ys, keep), Select(zs, keep));
    RenderAppend(Select(xs, keep), Select(ys, keep));
  }

  /** The walk prints exactly the rendered entries of the reference traversal that pass
      the filters, in the same order. */
  lemma {:induction false} VisitDirsIsSelectedEntries(dir: string, node: Node, depth: nat, e: Option<string>, n: Option<string>)
    ensures VisitDirs(dir, node, depth, e, n) == Render(Select(Entries(dir, node, depth), Passing(e, n)))
    decreases node
  {
    if node.Dir? {
      VisitEntriesIsSelectedEntries(dir, node.children, depth, e, n);
    }
  }

  lemma {:induction false} VisitEntriesIsSelectedEntries(dir: string, es: seq<Node>, depth: nat, e: Option<string>, n: Option<string>)
    ensures VisitEntries(dir, es, depth, e, n) == Render(Select(EntriesOf(dir, es, depth), Passing(e, n)))
    decreases es
  {
    if es != [] {
      var c := es[0];
      var p := Join(dir, c.name);
      var keep := Passing(e, n);
      var head := [Entry(depth, p, c.name)];
      var below := Entries(p, c, depth + 1);
      var rest := EntriesOf(dir, es[1..], depth);
      VisitDirsIsSelectedEntries(p, c, depth + 1, e, n);
      VisitEntriesIsSelectedEntries(dir, es[1..], depth, e, n);
      var line := if ApplyFilters(p, e, n) then [Line(depth, p)] else [];
      var sub := if c.Dir? then VisitDirs(p, c, depth + 1, e, n) else [];
      assert VisitEntries(dir, es, depth, e, n) == line + sub + VisitEntries(dir, es[1..], depth, e, n);
      assert EntriesOf(dir, es, depth) == head + below + rest;
      RenderSelectOfThree(head, below, rest, keep);
      assert keep(head[0]) == ApplyFilters(p, e, n);
      assert Select(head, keep) == if ApplyFilters(p, e, n) then head else [];
      assert Render(Select(head, keep)) == line;
      assert sub == Render(Select(below, keep));
    }
  }

  // ---------------------------------------------------------------------------
  // Filtering does not change the traversal.

  /** The printed lines whose path passes the filters, in order. */
  function KeepLines(lines: seq<string>, e: Option<string>, n: Option<string>): seq<string> {
    if lines == [] then []
    else
      var keep := match DecodeLine(lines[0]) case Some((_, path)) => ApplyFilters(path, e, n) case None => false;
      (if keep then [lines[0]] else []) + KeepLines(lines[1..], e, n)
  }

  lemma {:induction false} SelectNothingFiltered(xs: seq<Entry>)
    ensures Select(xs, Passing(None, None)) == xs
  {
    if xs != [] {
      SelectNothingFiltered(xs[1..]);
      assert xs == [xs[0]] + xs[1..];
    }
  }

  lemma {:induction false} RenderSelectIsKeepLines(xs: seq<Entry>, e: Option<string>, n: Option<string>)
    ensures Render(Select(xs, Passing(e, n))) == KeepLines(Render(xs), e, n)
  {
    if xs != [] {
      var x := xs[0];
      var lines := Render(xs);
      LineRoundTrip(x.depth, x.path);
      assert lines[0] == Line(x.depth, x.path);
      assert lines[1..] == Render(xs[1..]);
      RenderSelectIsKeepLines(xs[1..], e, n);
      var head := if ApplyFilters(x.path, e, n) then [x] else [];
      assert Select(xs, Passing(e, n)) == head + Select(xs[1..], Passing(e, n));
      RenderAppend(head, Select(xs[1..], Passing(e, n)));
    }
  }

  /** Filtered output equals the unfiltered output restricted to the lines whose path
      passes the filters: the filters hide lines but never change which directories are
      entered or the order in which entries come out. */
  lemma FilteredOutputRestrictsUnfiltered(dir: string, node: Node, depth: nat, e: Option<string>, n: Option<string>)
    ensures VisitDirs(dir, node, depth, e, n) == KeepLines(VisitDirs(dir, node, depth, None, None), e, n)
    ensures |VisitDirs(dir, node, depth, e, n)| <= |VisitDirs(dir, node, depth, None, None)|
  {
    var xs := Entries(dir, node, depth);
    VisitDirsIsSelectedEntries(dir, node, depth, e, n);
    VisitDirsIsSelectedEntries(dir, node, depth, None, None);
    SelectNothingFiltered(xs);
    RenderSelectIsKeepLines(xs, e, n);
  }

  // ---------------------------------------------------------------------------
  // Shape of the walk.

  /** The number of objects in a tree, the root included. */
  function Size(node: Node): nat
    decreases node
  {
    1 + if node.Dir? then ForestSize(node.children) else 0
  }

  function ForestSize(es: seq<Node>): nat
    decreases es
  {
    if es == [] then 0 else Size(es[0]) + ForestSize(es[1..])
  }

  lemma {:induction false} EntriesCount(path: string, node: Node, depth: nat)
    ensures |Entries(path, node, depth)| == Size(node) - 1
    decreases node
  {
    if node.Dir? {
      EntriesOfCount(path, node.children, depth);
    }
  }

  lemma {:induction false} EntriesOfCount(dir: string, es: seq<Node>, depth: nat)
    ensures |EntriesOf(dir, es, depth)| == ForestSize(es)
    decreases es
  {
    if es != [] {
      EntriesCount(Join(dir, es[0].name), es[0], depth + 1);
      EntriesOfCount(dir, es[1..], depth);
    }
  }

  /** Without filters every object below the root is printed exactly once and the root
      never is: the line count is the tree size less one. */
  lemma UnfilteredLineCount(dir: string, root: Node)
    ensures |VisitDirs(dir, root, 0, None, None)| == Size(root) - 1
  {
    VisitDirsIsSelectedEntries(dir, root, 0, None, None);
    SelectNothingFiltered(Entries(dir, root, 0));
    EntriesCount(dir, root, 0);
  }

  /** Selects the entries reported at depth `d`. */
  function AtDepth(d: nat): Entry -> bool {
    (x: Entry) => x.depth == d
  }

  lemma {:induction false} SelectNone(xs: seq<Entry>, keep: Entry -> bool)
    requires forall x :: x in xs ==> !keep(x)
    ensures Select(xs, keep) == []
  {
    if xs != [] {
      assert xs[0] in xs;
      assert forall x :: x in xs[1..] ==> x in xs;
      SelectNone(xs[1..], keep);
    }
  }

  /** The entries reported at the starting depth are exactly the directory's own
      entries, in enumeration order, each joined onto the directory path; everything
      found below them is reported deeper. */
  lemma {:induction false} TopLevelEntries(dir: string, es: seq<Node>, depth: nat)
    ensures var top := Select(EntriesOf(dir, es, depth), AtDepth(depth));
      && |top| == |es|
      && forall i :: 0 <= i < |es| ==> top[i] == Entry(depth, Join(dir, es[i].name), es[i].name)
    decreases es
  {
    if es != [] {
      var c := es[0];
      var p := Join(dir, c.name);
      var head := [Entry(depth, p, c.name)];
      var below := Entries(p, c, depth + 1);
      var rest := EntriesOf(dir, es[1..], depth);
      assert EntriesOf(dir, es, depth) == head + below + rest;
      SelectAppend(head + below, rest, AtDepth(depth));
      SelectAppend(head, below, AtDepth(depth));
      SelectNone(below, AtDepth(depth));
      assert Select(head, AtDepth(depth)) == head;
      TopLevelEntries(dir, es[1..], depth);
    }
  }

  /** The flat listing prints, in order, the names of the entries the recursive walk
      reports at depth 0. */
  lemma ListFilesIsTopLevelOfWalk(dir: string, children: seq<Node>, name: string)
    ensures var top := Select(Entries(dir, Dir(name, children), 0), AtDepth(0));
      && ListFiles(dir, Some(Dir(name, children))).Ok?
      && |ListFiles(dir, Some(Dir(name, children))).value| == |top|
      && forall i :: 0 <= i < |top| ==> ListFiles(dir, Some(Dir(name, children))).value[i] == top[i].name
  {
    TopLevelEntries(dir, children, 0);
  }
}

=== FILE: walker_examples.dfy ===
/** The recursive listing on a two-level tree like the one the listing test builds. */
module WalkerExamples {
  import opened Wrappers
  import opened Paths
  import opened Filters
  import opened Walker

  /** A root holding a file `f` and a directory `s` that holds a file `g`. */
  function TwoLevel(f: string, s: string, g: string): Node {
    Dir("r", [File(f), Dir(s, [File(g)])])
  }

  /** The tree `r/f.txt`, `r/s/g.txt`. */
  function TwoLevelTree(): Node {
    TwoLevel("f.txt", "s", "g.txt")
  }

  /** Regrouping of three candidate line lists. Stated over opaque lists so that the
      solver regroups them without unfolding the walk they come from. */
  lemma Associate<T>(a: seq<T>, b: seq<T>, c: seq<T>)
    ensures a + (b + c) == a + b + c
  {
  }

  /** One turn of the entry loop, with the joined path and its line named. */
  lemma VisitStep(dir: string, es: seq<Node>, depth: nat, e: Option<string>, n: Option<string>, path: string, line: string)
    requires es != [] && path == Join(dir, es[0].name) && line == Line(depth, path)
    ensures VisitEntries(dir, es, depth, e, n)
      == (if ApplyFilters(path, e, n) then [line] else [])
       + (if es[0].Dir? then VisitDirs(path, es[0], depth + 1, e, n) else [])
       + VisitEntries(dir, es[1..], depth, e, n)
  {
  }

  /** A directory holding one file: at most the file's own line. */
  lemma WalkOfSingleFile(dir: string, g: string, depth: nat, e: Option<string>, n: Option<string>, pg: string, lg: string)
    requires pg == Join(dir, g) && lg == Line(depth, pg)
    ensures VisitEntries(dir, [File(g)], depth, e, n) == if ApplyFilters(pg, e, n) then [lg] else []
  {
    var es := [File(g)];
    VisitStep(dir, es, depth, e, n, pg, lg);
    assert es[1..] == [];
    assert (if ApplyFilters(pg, e, n) then [lg] else []) + [] == (if ApplyFilters(pg, e, n) then [lg] else []);
  }

  /** A directory holding one subdirectory: its line, then the walk inside it. */
  lemma WalkOfSingleDir(dir: string, s: string, inner: seq<Node>, e: Option<string>, n: Option<string>, ps: string, ls: string)
    requires ps == Join(dir, s) && ls == Line(0, ps)
    ensures VisitEntries(dir, [Dir(s, inner)], 0, e, n)
      == (if ApplyFilters(ps, e, n) then [ls] else []) + VisitEntries(ps, inner, 1, e, n)
  {
    var es := [Dir(s, inner)];
    VisitStep(dir, es, 0, e, n, ps, ls);
    assert es[1..] == [];
    var own := (if ApplyFilters(ps, e, n) then [ls] else []) + VisitEntries(ps, inner, 1, e, n);
    assert own + [] == own;
  }

  /** A file ahead of other entries: its line, then the walk of the rest. */
  lemma WalkPastFile(dir: string, f: string, rest: seq<Node>, e: Option<string>, n: Option<string>, pf: string, lf: string)
    requires pf == Join(dir, f) && lf == Line(0, pf)
    ensures VisitEntries(dir, [File(f)] + rest, 0, e, n)
      == (if ApplyFilters(pf, e, n) then [lf] else []) + VisitEntries(dir, rest, 0, e, n)
  {
    var es := [File(f)] + rest;
    VisitStep(dir, es, 0, e, n, pf, lf);
    assert es[1..] == rest;
    assert (if ApplyFilters(pf, e, n) then [lf] else []) + [] == (if ApplyFilters(pf, e, n) then [lf] else []);
  }

  /** The walk of a two-level tree under any filters: three candidate lines, in
      pre-order, each kept exactly when its path passes; the file inside `s` is
      visited (one level deeper) even when `s` itself is filtered out. */
  lemma WalkOfTwoLevel(dir: string, f: string, s: string, g: string, e: Option<string>, n: Option<string>,
                       pf: string, ps: string, pg: string, lf: string, ls: string, lg: string)
    requires pf == Join(dir, f) && ps == Join(dir, s) && pg == Join(ps, g)
    requires lf == Line(0, pf) && ls == Line(0, ps) && lg == Line(1, pg)
    ensures VisitDirs(dir, TwoLevel(f, s, g), 0, e, n)
      == (if ApplyFilters(pf, e, n) then [lf] else [])
       + (if ApplyFilters(ps, e, n) then [ls] else [])
       + (if ApplyFilters(pg, e, n) then [lg] else [])
  {
    var inner := [File(g)];
    assert TwoLevel(f, s, g).children == [File(f)] + [Dir(s, inner)];
    WalkOfSingleFile(ps, g, 1, e, n, pg, lg);
    WalkOfSingleDir(dir, s, inner, e, n, ps, ls);
    WalkPastFile(dir, f, [Dir(s, inner)], e, n, pf, lf);
    Associate(if ApplyFilters(pf, e, n) then [lf] else [],
      if ApplyFilters(ps, e, n) then [ls] else [],
      if ApplyFilters(pg, e, n) then [lg] else []);
  }

  /** The same walk for the concrete tree rooted at `r`. */
  lemma WalkOfTwoLevelTree(e: Option<string>, n: Option<string>)
    ensures VisitDirs("r", TwoLevelTree(), 0, e, n)
      == (if ApplyFilters("r/f.txt", e, n) then ["/r/f.txt"] else [])
       + (if ApplyFilters("r/s", e, n) then ["/r/s"] else [])
       + (if ApplyFilters("r/s/g.txt", e, n) then ["  /r/s/g.txt"] else [])
  {
    WalkOfTwoLevel("r", "f.txt", "s", "g.txt", e, n, "r/f.txt", "r/s", "r/s/g.txt", "/r/f.txt", "/r/s", "  /r/s/g.txt");
  }

  /** Without filters every object below the root is printed, the nested file two
      spaces in. */
  lemma UnfilteredListingOfTwoLevelTree()
    ensures ListRecursive("r", Some(TwoLevelTree()), None, None) == Ok(["/r/f.txt", "/r/s", "  /r/s/g.txt"])
  {
    WalkOfTwoLevelTree(None, None);
    assert ApplyFilters("r/f.txt", None, None) && ApplyFilters("r/s", None, None) && ApplyFilters("r/s/g.txt", None, None);
    assert ["/r/f.txt"] + ["/r/s"] + ["  /r/s/g.txt"] == ["/r/f.txt", "/r/s", "  /r/s/g.txt"];
  }

  lemma TxtFilterKeepsF()
    ensures ApplyFilters("r/f.txt", Some("txt"), None)
  {
    DottedNameFilter("r", "f", "txt", "txt", "r/f.txt");
  }

  lemma TxtFilterDropsS()
    ensures !ApplyFilters("r/s", Some("txt"), None)
  {
    assert FileName("r/s") == Some("s");
  }

  lemma TxtFilterKeepsG()
    ensures ApplyFilters("r/s/g.txt", Some("txt"), None)
  {
    DottedNameFilter("r/s", "g", "txt", "txt", "r/s/g.txt");
  }

  /** The three candidate lines with the middle one filtered out, again over opaque
      lists so that the walk they come from is not unfolded. */
  lemma KeepFirstAndLast(lines: seq<string>, b1: bool, b2: bool, b3: bool, l1: string, l2: string, l3: string)
    requires lines == (if b1 then [l1] else []) + (if b2 then [l2] else []) + (if b3 then [l3] else [])
    requires b1 && !b2 && b3
    ensures lines == [l1, l3]
  {
  }

  /** With the extension filter `txt` the directory `s` is hidden but still entered, so
      `g.txt` below it is still found. */
  lemma FilteredListingOfTwoLevelTree()
    ensures ListRecursive("r", Some(TwoLevelTree()), Some("txt"), None) == Ok(["/r/f.txt", "  /r/s/g.txt"])
  {
    WalkOfTwoLevelTree(Some("txt"), None);
    TxtFilterKeepsF();
    TxtFilterDropsS();
    TxtFilterKeepsG();
    KeepFirstAndLast(VisitDirs("r", TwoLevelTree(), 0, Some("txt"), None),
      ApplyFilters("r/f.txt", Some("txt"), None), ApplyFilters("r/s", Some("txt"), None), ApplyFilters("r/s/g.txt", Some("txt"), None),
      "/r/f.txt", "/r/s", "  /r/s/g.txt");
  }
}

=== FILE: wrappers.dfy ===
/** Option and Result, the two failure-carrying shapes the command-line tool uses
    (Rust's `Option<T>` and `io::Result<T>`). */
module Wrappers {

  datatype Option<+T> = None | Some(value: T) {

    /** Returns the wrapped value, or `default` when there is none (Rust's `unwrap_or`). */
    function UnwrapOr(default: T): T {
      match this
      case Some(v) => v
      case None => default
    }
  }

  datatype Result<+T, +E> = Ok(value: T) | Err(error: E)
}
